=== FILE: README.md ===
# Entity repository core of `javaine`, modelled in Dafny

This project models the one part of the `javaine` Java sample code that has real
invariants: identity-based entities, the capability-composed in-memory repository, the
two stores and three feature handlers built on it, the defensive-copy discipline of
`Pizza` and `Ingredient`, and the `StreamSql.leftJoin` utility.

- `EntityBase` (`entity_base.dfy`): a UUID fixed at construction; `equals` compares ids
  only (any two `EntityBase` subclasses, never `null` or a non-entity); `hashCode` is
  `Objects.hash(id)` and so a function of the id.
- `Customers`, `Users`: identity-only entities with a `create(id)` factory.
- `Results`: `NotFondException` as the only failure of `Result`, and `Get.unwrap`.
- `Repository`: `get`, `add`, `remove`, `update` over the backing `HashSet`. Because the
  set's membership test is `EntityBase.equals`, the set is keyed by id. It is modelled as
  `map<Uuid, T>`, with `key` standing for the entity type's `getId`.
- `BackingSet`: the same `HashSet` as a sequence in iteration order. `add` is refused for
  a held id and `remove` drops by id. Lemmas show these are the map operations of
  `Repository`. `FindFirst` is `get`'s linear `filter(...).findFirst()` scan.
- `Capabilities`: the interface hierarchy `Data`/`Add`/`Get`/`Remove`/`Update`/
  `Repository`. It gives the operations each interface offers and each store implements.
- `Stores`: the `static` sets of `CustomerRepository` (full `Repository`) and
  `UserRepository` (`Get` only). They form one explicit program state, shared by all
  instances and empty at start.
- `CreateCustomer`, `UpdateCustomer`, `GetUser` (`features.dfy`): the three
  `ServiceImpl.handler` methods.
- `Ingredients`, `Pizzas`: `Ingredient` objects live in an explicit heap (`Ref` to state).
  This makes the aliasing rules statable. The `Pizza` constructor, `getIngredients` and
  `copy` clone every ingredient into fresh objects. `addIngedient` stores the caller's own
  object. The price is 6/5 of the current costs, over `real`.
- `StreamSql`: `leftJoin` over sequences, with `Option` for the `null` right side.

Four behaviours of the code worth noting:
- `get` returns the stored object itself, not a copy.
- Each store's set is `static`. All instances of a store class share it, and it is
  created empty once, not once per instance.
- `Ingredient.cost` is not validated, so it may be negative.
- `addIngedient` stores the caller's object without cloning it. A `Pizza` therefore can
  share an `Ingredient` with its caller (`Pizzas.AddIngedientAliases`).

## Model

| member | source | states |
|---|---|---|
| `EntityBase.GetIdReturnsConstructorId` | src/main/java/com/example/common/EntityBase.java:7-15 | `getId()` returns the id the entity was built with |
| `EntityBase.Equals` | src/main/java/com/example/common/EntityBase.java:22-35 | `equals(Object)`; the lemmas below state its meaning: same id, any subclass, never `null` or a non-entity, an equivalence |
| `EntityBase.UuidHashCode` | src/main/java/com/example/common/EntityBase.java:17-20 | `UUID.hashCode()` bit for bit: the xor of the two 32-bit halves of `mostSigBits ^ leastSigBits` |
| `EntityBase.HashCode` | src/main/java/com/example/common/EntityBase.java:17-20 | `Objects.hash(id)`, that is `31 + id.hashCode()` with 32-bit wrap-around; `HashCodeConsistentWithEquals` states its agreement with `equals` |
| `EntityBase.EqualsIffSameId` | src/main/java/com/example/common/EntityBase.java:30-32 | two entities are equal exactly when their ids are equal, whatever else they hold |
| `EntityBase.EqualsIgnoresClass` | src/main/java/com/example/common/EntityBase.java:30 | the test is `instanceof EntityBase`: entities of different classes with one UUID are equal |
| `EntityBase.EqualsRejectsNonEntities` | src/main/java/com/example/common/EntityBase.java:30-34 | `null` and non-entities are never equal to an entity |
| `EntityBase.EqualsIsEquivalence` | src/main/java/com/example/common/EntityBase.java:22-35 | equality is reflexive, symmetric and transitive |
| `EntityBase.HashCodeConsistentWithEquals` | src/main/java/com/example/common/EntityBase.java:17-20 | equal entities have equal hash codes |
| `Customers.Create` | src/main/java/com/example/domain/Customer.java:12-15 | `create(id)` yields a Customer whose `getId()` is `id` |
| `Customers.CreateEquality` | src/main/java/com/example/domain/Customer.java:9-15 | customers created from ids `a`, `b` are equal iff `a == b`; equal ones hash alike |
| `Users.Create` | src/main/java/com/example/domain/User.java:12-15 | `create(id)` yields a User whose `getId()` is `id` |
| `Users.CreateEquality` | src/main/java/com/example/domain/User.java:9-15 | users created from ids `a`, `b` are equal iff `a == b` |
| `Results.Unwrap` | src/main/java/com/example/common/repository/Get.java:16-20 | a present value is returned unchanged; an absent one becomes NotFound with message "No se encuentra el registro" |
| `Repository.Get` | src/main/java/com/example/common/repository/Get.java:10-14 | succeeds exactly when some stored entity has id `id`; returns that stored entity itself; otherwise NotFound |
| `Repository.Add` | src/main/java/com/example/common/repository/Add.java:6-8 | afterwards `e`'s id is present; a present id leaves the store unchanged (old entry kept); an absent one adds exactly `e` and keeps all other entries; size grows by one |
| `Repository.Remove` | src/main/java/com/example/common/repository/Remove.java:6-8 | afterwards `e`'s id is absent; all other entries are unchanged; size drops by one only if the id was present; never fails |
| `Repository.Update` | src/main/java/com/example/common/repository/Update.java:6-9 | the store becomes the old store with `e` filed under its id (replace by id): the entry is exactly `e`, other entries are unchanged; size is unchanged if the id was present and grows by one otherwise |
| `Repository.GetAfterAdd` | src/main/java/com/example/common/repository/Add.java:6-8 | get after a fresh add returns the added entity; adding a present id changes no lookup |
| `Repository.GetAfterRemove` | src/main/java/com/example/common/repository/Remove.java:5-8 | get of the removed id fails NotFound; lookups of other ids are unchanged |
| `Repository.GetAfterUpdate` | src/main/java/com/example/common/repository/Update.java:5-9 | get of `e`'s id after update returns `e`; other lookups are unchanged |
| `Repository.AddIdempotent` | src/main/java/com/example/common/repository/Add.java:7 | adding twice has the effect of adding once |
| `Repository.RemoveIdempotent` | src/main/java/com/example/common/repository/Remove.java:6-8 | removing twice has the effect of removing once |
| `Repository.UpdateIdempotent` | src/main/java/com/example/common/repository/Update.java:6-9 | updating twice has the effect of updating once |
| `Repository.RemoveById` | src/main/java/com/example/common/repository/Remove.java:7 | removing any entity with the same id has the same effect as removing the stored one |
| `Repository.UpdateOfAbsentIsAdd` | src/main/java/com/example/common/repository/Update.java:7-8 | update of an absent id behaves exactly like add |
| `Repository.RepositoryScenarios` | src/main/java/com/example/common/repository/Repository.java:5-6 | over one store: add then get returns `e`; add, remove, get fails NotFound and remove undoes add; update with an id-equal `e2` makes get return `e2`, while a second add of `e2` still leaves `e` |
| `BackingSet.AsStore` | src/main/java/com/example/common/repository/Get.java:11-12 | the set read as a map files every element under its own id and has exactly the set's ids as keys |
| `BackingSet.AsStoreSize` | src/main/java/com/example/common/repository/Add.java:7 | for a set with distinct ids the map view has one entry per element |
| `BackingSet.SetAdd` | src/main/java/com/example/common/repository/Add.java:7 | `HashSet.add` under id equality: the held ids grow by exactly the argument's id, the old elements stay in place, and ids stay distinct |
| `BackingSet.SetRemove` | src/main/java/com/example/common/repository/Remove.java:7 | `HashSet.remove` under id equality; `SetRemoveIds` and `RemoveRefines` state its effect |
| `BackingSet.SetRemoveIds` | src/main/java/com/example/common/repository/Remove.java:7 | `HashSet.remove` takes exactly the argument's id out and keeps ids distinct |
| `BackingSet.AddRefines` | src/main/java/com/example/common/repository/Add.java:7 | `HashSet.add` under id equality keeps ids distinct and is `Repository.Add` on the map view |
| `BackingSet.RemoveRefines` | src/main/java/com/example/common/repository/Remove.java:7 | `HashSet.remove` under id equality is `Repository.Remove` on the map view |
| `BackingSet.UpdateRefines` | src/main/java/com/example/common/repository/Update.java:6-9 | the set's remove-then-add keeps ids distinct and is `Repository.Update` on the map view |
| `BackingSet.FindFirst` | src/main/java/com/example/common/repository/Get.java:10-14 | the scan succeeds iff some element has the id and then returns the first such element; otherwise NotFound; on a set with distinct ids it agrees with `Repository.Get` |
| `Capabilities.Extends` | src/main/java/com/example/common/repository/Repository.java:5-6 | the `extends` clause of each interface; every super-interface lies strictly lower in the hierarchy, so the hierarchy is acyclic |
| `Capabilities.OffersByInterface` | src/main/java/com/example/common/repository/Repository.java:5-7 | from the `extends` clauses: `Repository` offers all four operations, `Update` and `Remove` also offer `get`, `Get` and `Add` offer only themselves |
| `Capabilities.SubtypeOffersMore` | src/main/java/com/example/common/repository/Repository.java:5-6 | an interface offers everything each of its super-interfaces offers |
| `Capabilities.StoreCapabilities` | src/main/java/com/example/infraesctructure/UserRepository.java:10 | the customer store offers all four operations and is an `Add` and an `Update`; of the four default methods the user store offers only `get`, and it is neither an `Add` nor an `Update` |
| `Stores.CustomerData` | src/main/java/com/example/infraesctructure/CustomerRepository.java:12-16 | `CustomerRepository.getData()`: the one static customer set, whichever instance is asked (`InstancesShareData`) |
| `Stores.UserData` | src/main/java/com/example/infraesctructure/UserRepository.java:11-15 | `UserRepository.getData()`: the one static user set, whichever instance is asked (`InstancesShareData`) |
| `Stores.InstancesShareData` | src/main/java/com/example/infraesctructure/CustomerRepository.java:12-16 | `getData()` yields the same set through every instance, empty at program start |
| `Stores.Step` | src/main/java/com/example/infraesctructure/CustomerRepository.java:10-16 | a call keeps both sets keyed by id; customer `add`, `remove` and `update` act on the one static customer set as `Repository.Add`, `Remove` and `Update`; a successful get returns the stored entity; gets and all calls on users change nothing; exactly the gets of absent ids fail, with NotFound |
| `Stores.RunNeverChangesUsers` | src/main/java/com/example/infraesctructure/UserRepository.java:10-15 | over any sequence of calls the user set stays as it was, and each user get fails iff its id was absent at the start |
| `Stores.EveryUserLookupFails` | src/main/java/com/example/infraesctructure/UserRepository.java:11 | from program start, whatever `add`, `get`, `remove` and `update` calls are made, the user set stays empty and every user get fails |
| `Stores.CustomerGetBeforeAdd` | src/main/java/com/example/infraesctructure/CustomerRepository.java:12 | before any add a customer get fails NotFound |
| `Stores.SharedAcrossInstances` | src/main/java/com/example/infraesctructure/CustomerRepository.java:12-15 | a customer added through one instance is found through another |
| `Stores.UserGetDeterministic` | src/main/java/com/example/infraesctructure/UserRepository.java:11-15 | repeating a user get gives the same outcome |
| `CreateCustomer.Handler` | src/main/java/com/example/features/customer/commands/CreateCustomer.java:20-23 | never fails; with a fresh id the store grows by exactly the new customer and other entries are unchanged; a colliding id leaves the store unchanged; get of the id then succeeds |
| `CreateCustomer.CapabilitySuffices` | src/main/java/com/example/features/customer/commands/CreateCustomer.java:15-18 | the `Add` capability covers the handler's calls and the customer store can be passed for it |
| `UpdateCustomer.Handler` | src/main/java/com/example/features/customer/commands/UpdateCustomer.java:20-23 | fails NotFound iff the id is absent; in every case the store afterwards equals the store before |
| `UpdateCustomer.CapabilitySuffices` | src/main/java/com/example/features/customer/commands/UpdateCustomer.java:13-17 | the `Update` capability, which includes `get`, covers the handler's calls |
| `GetUser.Handler` | src/main/java/com/example/features/user/queries/GetUser.java:19-21 | fails NotFound iff the id is absent and never changes the store |
| `GetUser.CapabilitySuffices` | src/main/java/com/example/features/user/queries/GetUser.java:14-17 | the `Get` capability covers the handler and the user store can be passed for it |
| `GetUser.FailsOnUserRepository` | src/main/java/com/example/features/user/queries/GetUser.java:19-21 | handed the user store, the handler fails NotFound after any calls |
| `Ingredients.New` | src/main/java/com/example/domain/Ingredient.java:23-32 | a constructor call allocates a fresh object holding the given state; existing objects are unchanged |
| `Ingredients.Create` | src/main/java/com/example/domain/Ingredient.java:38-41 | `create` yields a new object with exactly the given id, name and cost |
| `Ingredients.Update` | src/main/java/com/example/domain/Ingredient.java:33-37 | name and cost are set together; the id is unchanged; no other object changes |
| `Ingredients.Copy` | src/main/java/com/example/domain/Ingredient.java:43-45 | a new, distinct object with the same id, name and cost, equal to the original |
| `Ingredients.UpdateKeepsIdentity` | src/main/java/com/example/domain/Ingredient.java:33-37 | an update changes neither equality nor hash code, so set membership is unaffected |
| `Ingredients.CopyIsolation` | src/main/java/com/example/domain/Ingredient.java:43-45 | updating the copy leaves the original unchanged and vice versa |
| `Pizzas.GetPrice` | src/main/java/com/example/domain/Pizza.java:27-31 | the price of an empty pizza is zero, and with non-negative costs the price is non-negative; `PriceOfCreate`, `PriceAfterAdd` and `PriceAfterRemove` give its value |
| `Pizzas.CloneIngredients` | src/main/java/com/example/domain/Pizza.java:65-69 | the clone holds fresh objects with the same states, in order; existing objects are unchanged |
| `Pizzas.Create` | src/main/java/com/example/domain/Pizza.java:18-25 | the pizza has the given fields and a set of fresh objects whose states equal the caller's; its set has distinct ids |
| `Pizzas.GetIngredients` | src/main/java/com/example/domain/Pizza.java:33-35 | returns fresh objects with the same states as the pizza's own; the pizza stays well-formed |
| `Pizzas.AddIngedient` | src/main/java/com/example/domain/Pizza.java:49-52 | afterwards the id is present; if it was already present the pizza is unchanged, else the caller's own reference is appended; the set keeps distinct ids |
| `Pizzas.RemoveIngredient` | src/main/java/com/example/domain/Pizza.java:54-57 | afterwards no ingredient has the argument's id; every ingredient with another id stays; no reference is added; the set keeps distinct ids; an absent id leaves the pizza unchanged |
| `Pizzas.Update` | src/main/java/com/example/domain/Pizza.java:59-64 | name, description and url are replaced together; id and ingredients stay |
| `Pizzas.Copy` | src/main/java/com/example/domain/Pizza.java:75-82 | the copy equals the original and has its id, name, description, url and ingredient states; every ingredient object of the copy is newly allocated, so it shares none with the original, the caller or any other pizza; the original stays well-formed |
| `Pizzas.PriceOfCreate` | src/main/java/com/example/domain/Pizza.java:27-31 | a new pizza's price is 6/5 of the sum of the caller's costs at construction |
| `Pizzas.PriceAfterAdd` | src/main/java/com/example/domain/Pizza.java:49-52 | the next price after adding a new id includes its cost times 6/5; adding a present id changes nothing |
| `Pizzas.PriceAfterRemove` | src/main/java/com/example/domain/Pizza.java:54-57 | the next price after removal drops the cost of the pizza's ingredient with that id, or is unchanged if absent |
| `Pizzas.ConstructorIsolation` | src/main/java/com/example/domain/Pizza.java:23 | updating any of the caller's ingredient objects after construction changes neither the pizza's ingredients nor its price |
| `Pizzas.GetIngredientsIsolation` | src/main/java/com/example/domain/Pizza.java:33-35 | the returned objects match the pizza's field for field; updating one changes neither the pizza's ingredients nor its price |
| `Pizzas.CopyIsolation` | src/main/java/com/example/domain/Pizza.java:75-82 | updating an ingredient of the copy leaves the original unchanged and vice versa; the prices agree |
| `Pizzas.AddIngedientAliases` | src/main/java/com/example/domain/Pizza.java:49-52 | no isolation on add: the caller's later update of the added object shows in the pizza's price |
| `Pizzas.IngredientUpdateKeepsWellFormed` | src/main/java/com/example/domain/Ingredient.java:33-37 | ids are final, so no ingredient update, aliased or not, can give a pizza's set two equal elements |
| `Pizzas.TotalAppend` | src/main/java/com/example/domain/Pizza.java:28-30 | the cost sum over a concatenation is the sum of the two sums |
| `StreamSql.Matches` | src/main/java/com/example/StreamSql.java:16-18 | every match is an element of the collection accepted by the predicate |
| `StreamSql.MatchesComplete` | src/main/java/com/example/StreamSql.java:16-18 | every accepted element of the collection is a match |
| `StreamSql.MatchesAppend` | src/main/java/com/example/StreamSql.java:16-18 | filtering keeps collection order |
| `StreamSql.Rows` | src/main/java/com/example/StreamSql.java:21-29 | a left element contributes at least one row, and every one of its rows has it as `first` |
| `StreamSql.LeftJoin` | src/main/java/com/example/StreamSql.java:15-30 | at least one row per left element; each row's `first` is a left element; a `Some` right side satisfies the predicate and comes from the collection; a `None` right side only for a left element with no match |
| `StreamSql.LeftJoinLength` | src/main/java/com/example/StreamSql.java:15-30 | the output length is the sum over left elements of max(1, number of matches) |
| `StreamSql.LeftJoinAppend` | src/main/java/com/example/StreamSql.java:15 | the join of a concatenation is the concatenation of the joins |
| `StreamSql.LeftJoinBlocks` | src/main/java/com/example/StreamSql.java:15-30 | the rows of the i-th left element form one contiguous block, in left order, equal to its matches paired with it or its single `(a, None)` |
| `StreamSql.RowsComplete` | src/main/java/com/example/StreamSql.java:16-29 | the rows of one left element hold a pair with each accepted collection element, or `(a, None)` when none is accepted |
| `StreamSql.LeftJoinComplete` | src/main/java/com/example/StreamSql.java:22-29 | every left element appears: with each matching right element, or once with `None` when none match |

## Left out

- `cost` and `getPrice` are `double` in the source and `real` here, so IEEE rounding is not modelled. The profit multiplier `1.2` is taken as exactly 6/5. With reals, the price does not depend on the set's iteration order.
- `HashSet` iteration order is unspecified. `BackingSet` and the pizza's ingredient set use insertion order as a stand-in. With distinct ids, no result of the model depends on the order.
- `Pizzas.Create` requires the caller's `Set<Ingredient>` to hold distinct ids. A `HashSet<Ingredient>` always does, because it compares by id.
- Customers.CreateEquality, Users.CreateEquality: `Customer` and `User` objects are values here, so two `create` calls with one id give the same value, where Java gives two distinct objects that are only `equals`. Reference `==` on entities is not modelled; no code in the core compares entity references.
- Pizza objects are values here, not heap objects. Aliasing between two `Pizza` references is not modelled; only `Ingredient` aliasing is.
- `UUID.randomUUID()` in `CreateCustomer` becomes the handler's `freshId` input.
- The `Data` interface is not part of this model. It is taken to declare only `getData()`, which offers no default operation.
- Stores.EveryUserLookupFails: only calls through `get`, `add`, `remove` and `update` are modelled. `getData()` is public and returns the mutable static set, so a holder of a `UserRepository` could fill it with `getData().add(...)`. No code in the core does so. The same holds for `Stores.RunNeverChangesUsers`, `GetUser.FailsOnUserRepository` and `Capabilities.StoreCapabilities`.
- StreamSql.LeftJoin: `null` elements of `collectionB` are not modelled. In the source, a `null` that the predicate accepts gives the row `Pair(a, null)`, which cannot be told apart from the no-match row. The model's `Option` keeps the two apart, so "`None` only for a left element with no match" holds only for collections without `null`.
- `null` arguments to `add`, `remove`, `update`, `addIngedient` and `removeIngredient` are not modelled. Ids are never `null`.
- Concurrency: the static sets have no locking. The model is single-threaded, and `update`'s remove-then-add is one step.
- `Pair.toString` formatting is left out. `Pair` is a datatype whose fields hold what the constructor was given.
- `StreamSql.leftJoin` works on lazy streams. Here the stream and the collection are finite sequences in encounter order.
- `FilterPares`, `MiResource`, `Functional`, `Operation` and `TotalCountCollector` are demonstrations with file I/O, console output or parallel collectors. They hold no state of the core.

=== FILE: backing_set.dfy ===
/** The `HashSet<T>` behind every store, seen as the sequence of its elements in
    iteration order. Its membership test is `EntityBase.equals`, so `add` is refused for
    an element whose id is already held and `remove` drops the element with the given id.
    The lemmas here show that these set operations are the map operations of `Repository`
    under the view `AsStore`, and `FindFirst` is the linear scan of `Get.get`. */
module BackingSet {
  import opened EntityBase
  import opened Results
  import Repository

  /** The ids held by a sequence of entities. */
  function Ids<T>(xs: seq<T>, key: T -> Uuid): set<Uuid>
  {
    if |xs| == 0 then {} else Ids(xs[..|xs| - 1], key) + {key(xs[|xs| - 1])}
  }

  /** An id is held exactly when some element carries it. */
  lemma {:induction false} InIds<T>(xs: seq<T>, key: T -> Uuid)
    ensures forall i :: 0 <= i < |xs| ==> key(xs[i]) in Ids(xs, key)
    ensures forall id :: id in Ids(xs, key) ==> exists i :: 0 <= i < |xs| && key(xs[i]) == id
  {
    if |xs| > 0 {
      var init := xs[..|xs| - 1];
      assert forall i :: 0 <= i < |init| ==> init[i] == xs[i];
      InIds(init, key);
    }
  }

  /** The set invariant under id-equality: no two elements share an id. */
  predicate DistinctIds<T>(xs: seq<T>, key: T -> Uuid)
  {
    forall i, j :: 0 <= i < j < |xs| ==> key(xs[i]) != key(xs[j])
  }

  /** The map view of the set: every element filed under its id. */
  function AsStore<T>(xs: seq<T>, key: T -> Uuid): (s: Repository.Store<T>)
    ensures Repository.Keyed(s, key)
    ensures s.Keys == Ids(xs, key)
  {
    if |xs| == 0 then map[]
    else AsStore(xs[..|xs| - 1], key)[key(xs[|xs| - 1]) := xs[|xs| - 1]]
  }

  /** Appending one element extends the ids and the map view by that element. */
  lemma {:induction false} Snoc<T>(xs: seq<T>, key: T -> Uuid, y: T)
    ensures (xs + [y])[..|xs|] == xs
    ensures Ids(xs + [y], key) == Ids(xs, key) + {key(y)}
    ensures AsStore(xs + [y], key) == AsStore(xs, key)[key(y) := y]
    ensures DistinctIds(xs, key) && key(y) !in Ids(xs, key) ==> DistinctIds(xs + [y], key)
  {
    assert (xs + [y])[..|xs|] == xs;
    InIds(xs, key);
  }

  /** Under distinct ids, the map view files each element under its own id. */
  lemma {:induction false} AsStoreAt<T>(xs: seq<T>, key: T -> Uuid, i: nat)
    requires DistinctIds(xs, key)
    requires i < |xs|
    ensures key(xs[i]) in AsStore(xs, key)
    ensures AsStore(xs, key)[key(xs[i])] == xs[i]
  {
    var init := xs[..|xs| - 1];
    if i < |xs| - 1 {
      assert init[i] == xs[i];
      assert DistinctIds(init, key);
      AsStoreAt(init, key, i);
      assert key(xs[i]) != key(xs[|xs| - 1]);
    }
  }

  /** A set with distinct ids splits into a smaller one and a last element whose id is
      new to it. */
  lemma Split<T>(xs: seq<T>, key: T -> Uuid)
    requires |xs| > 0
    ensures xs == xs[..|xs| - 1] + [xs[|xs| - 1]]
    ensures DistinctIds(xs, key) ==> DistinctIds(xs[..|xs| - 1], key)
    ensures DistinctIds(xs, key) ==> key(xs[|xs| - 1]) !in Ids(xs[..|xs| - 1], key)
  {
    var init := xs[..|xs| - 1];
    assert forall i :: 0 <= i < |init| ==> init[i] == xs[i];
    InIds(init, key);
  }

  /** Under distinct ids, the map view has one entry per element. */
  lemma {:induction false} AsStoreSize<T>(xs: seq<T>, key: T -> Uuid)
    requires DistinctIds(xs, key)
    ensures |AsStore(xs, key)| == |xs|
  {
    if |xs| > 0 {
      var init := xs[..|xs| - 1];
      Split(xs, key);
      AsStoreSize(init, key);
    }
  }

  /** `HashSet.add(e)`: refused when an element with `e`'s id is already held. */
  function SetAdd<T>(xs: seq<T>, key: T -> Uuid, e: T): (r: seq<T>)
    ensures Ids(r, key) == Ids(xs, key) + {key(e)}
    ensures |xs| <= |r| <= |xs| + 1 && r[..|xs|] == xs
    ensures DistinctIds(xs, key) ==> DistinctIds(r, key)
  {
    if key(e) in Ids(xs, key) then xs
    else
      Snoc(xs, key, e);
      xs + [e]
  }

  /** `HashSet.remove(e)`: drops the element with `e`'s id, keeping the rest in order. */
  function SetRemove<T>(xs: seq<T>, key: T -> Uuid, e: T): seq<T>
  {
    if |xs| == 0 then []
    else
      var rest := SetRemove(xs[..|xs| - 1], key, e);
      if key(xs[|xs| - 1]) == key(e) then rest else rest + [xs[|xs| - 1]]
  }

  /** Remove takes exactly `e`'s id out of the set and keeps the ids distinct. */
  lemma {:induction false} SetRemoveIds<T>(xs: seq<T>, key: T -> Uuid, e: T)
    ensures Ids(SetRemove(xs, key, e), key) == Ids(xs, key) - {key(e)}
    ensures DistinctIds(xs, key) ==> DistinctIds(SetRemove(xs, key, e), key)
  {
    if |xs| > 0 {
      var init := xs[..|xs| - 1];
      var last := xs[|xs| - 1];
      var rest := SetRemove(init, key, e);
      Split(xs, key);
      Snoc(init, key, last);
      SetRemoveIds(init, key, e);
      if key(last) != key(e) {
        Snoc(rest, key, last);
      }
    }
  }

  /** The set's `add` is `Repository.Add` on the map view, and keeps ids distinct. */
  lemma AddRefines<T>(xs: seq<T>, key: T -> Uuid, e: T)
    requires DistinctIds(xs, key)
    ensures DistinctIds(SetAdd(xs, key, e), key)
    ensures AsStore(SetAdd(xs, key, e), key) == Repository.Add(AsStore(xs, key), key, e)
  {
    if key(e) !in Ids(xs, key) {
      Snoc(xs, key, e);
    }
  }

  /** The set's `remove` is `Repository.Remove` on the map view. */
  lemma {:induction false} RemoveRefines<T>(xs: seq<T>, key: T -> Uuid, e: T)
    ensures AsStore(SetRemove(xs, key, e), key) == Repository.Remove(AsStore(xs, key), key, e)
  {
    if |xs| > 0 {
      var init := xs[..|xs| - 1];
      var last := xs[|xs| - 1];
      var rest := SetRemove(init, key, e);
      var before := AsStore(init, key);
      RemoveRefines(init, key, e);
      assert AsStore(rest, key) == before - {key(e)};
      assert AsStore(xs, key) == before[key(last) := last];
      if key(last) == key(e) {
        assert SetRemove(xs, key, e) == rest;
        MapFacts(before, key(last), last, key(e));
      } else {
        assert SetRemove(xs, key, e) == rest + [last];
        Snoc(rest, key, last);
        MapFacts(before, key(last), last, key(e));
      }
    }
  }

  /** Map update and key removal commute on different keys; on the same key removal wins. */
  lemma MapFacts<K, V>(m: map<K, V>, k: K, v: V, j: K)
    ensures k == j ==> m[k := v] - {j} == m - {j}
    ensures k != j ==> (m - {j})[k := v] == m[k := v] - {j}
  {
  }

  /** The set's remove-then-add is `Repository.Update` on the map view. */
  lemma UpdateRefines<T>(xs: seq<T>, key: T -> Uuid, e: T)
    requires DistinctIds(xs, key)
    ensures DistinctIds(SetAdd(SetRemove(xs, key, e), key, e), key)
    ensures AsStore(SetAdd(SetRemove(xs, key, e), key, e), key)
         == Repository.Update(AsStore(xs, key), key, e)
  {
    RemoveRefines(xs, key, e);
    SetRemoveIds(xs, key, e);
    AddRefines(SetRemove(xs, key, e), key, e);
  }

  /** `Get.get(id)`: scan the set in iteration order for the first element whose
      `getId()` equals `id`, and unwrap the outcome. */
  method FindFirst<T>(xs: seq<T>, key: T -> Uuid, id: Uuid) returns (r: Result<T>)
    ensures r.Ok? <==> id in Ids(xs, key)
    ensures r.Ok? ==> exists i :: 0 <= i < |xs| && r.value == xs[i] && key(xs[i]) == id
                                  && forall j :: 0 <= j < i ==> key(xs[j]) != id
    ensures r.Err? ==> r.error == NotFound
    ensures DistinctIds(xs, key) ==> r == Repository.Get(AsStore(xs, key), key, id)
  {
    InIds(xs, key);
    var i := 0;
    while i < |xs|
      invariant 0 <= i <= |xs|
      invariant forall j :: 0 <= j < i ==> key(xs[j]) != id
    {
      if key(xs[i]) == id {
        if DistinctIds(xs, key) {
          AsStoreAt(xs, key, i);
        }
        return Unwrap(Some(xs[i]));
      }
      i := i + 1;
    }
    return Unwrap(None);
  }
}

=== FILE: capabilities.dfy ===
/** The interface hierarchy of the repository: `Data` declares `getData()`, `Add` and
    `Get` extend `Data`, `Remove` and `Update` extend `Get`, and `Repository` extends
    `Update`, `Remove` and `Add` without adding anything. A store's interface fixes which
    operations a holder of it can call. */
module Capabilities {

  datatype Interface = DataI | AddI | GetI | RemoveI | UpdateI | RepositoryI

  /** The default methods of the repository interfaces. */
  datatype Operation = AddOp | GetOp | RemoveOp | UpdateOp

  /** Depth in the hierarchy; every direct super-interface is shallower. */
  function Depth(i: Interface): nat
  {
    match i
    case DataI => 0
    case AddI => 1
    case GetI => 1
    case RemoveI => 2
    case UpdateI => 2
    case RepositoryI => 3
  }

  /** The `extends` clause of each interface. */
  function Extends(i: Interface): (supers: seq<Interface>)
    ensures forall j :: j in supers ==> Depth(j) < Depth(i)
  {
    match i
    case DataI => []
    case AddI => [DataI]
    case GetI => [DataI]
    case RemoveI => [GetI]
    case UpdateI => [GetI]
    case RepositoryI => [UpdateI, RemoveI, AddI]
  }

  /** The default methods each interface itself declares. */
  function Declares(i: Interface): set<Operation>
  {
    match i
    case DataI => {}
    case AddI => {AddOp}
    case GetI => {GetOp}
    case RemoveI => {RemoveOp}
    case UpdateI => {UpdateOp}
    case RepositoryI => {}
  }

  /** The operations an interface offers: its own plus everything it inherits. */
  function Offers(i: Interface): set<Operation>
    decreases Depth(i), 1
  {
    Declares(i) + Inherited(Extends(i), Depth(i))
  }

  /** The operations offered by any of the interfaces `supers`. */
  function Inherited(supers: seq<Interface>, bound: nat): set<Operation>
    requires forall j :: j in supers ==> Depth(j) < bound
    decreases bound, 0, |supers|
  {
    if |supers| == 0 then {} else Offers(supers[0]) + Inherited(supers[1..], bound)
  }

  /** `i` is `j` or inherits from it, so a value of type `i` can be passed where `j` is
      expected. */
  predicate IsSubtype(i: Interface, j: Interface)
    decreases Depth(i)
  {
    i == j || exists k :: k in Extends(i) && IsSubtype(k, j)
  }

  /** A store's interface: `CustomerRepository` implements `Repository<Customer, UUID>`,
      `UserRepository` only `Get<User, UUID>`. */
  datatype StoreClass = CustomerRepositoryClass | UserRepositoryClass

  function Implements(c: StoreClass): Interface
  {
    match c
    case CustomerRepositoryClass => RepositoryI
    case UserRepositoryClass => GetI
  }

  /** What each interface offers, computed from the hierarchy: `Repository` is the union
      of all four capabilities, `Update` and `Remove` bring `get` with them. */
  lemma OffersByInterface()
    ensures Offers(DataI) == {}
    ensures Offers(AddI) == {AddOp}
    ensures Offers(GetI) == {GetOp}
    ensures Offers(RemoveI) == {GetOp, RemoveOp}
    ensures Offers(UpdateI) == {GetOp, UpdateOp}
    ensures Offers(RepositoryI) == {AddOp, GetOp, RemoveOp, UpdateOp}
  {
    assert Offers(DataI) == {};
    assert Offers(AddI) == {AddOp};
    assert Offers(GetI) == {GetOp};
    assert Offers(RemoveI) == {GetOp, RemoveOp};
    assert Offers(UpdateI) == {GetOp, UpdateOp};
  }

  /** A subtype offers at least what its super-interface offers. */
  lemma {:induction false} SubtypeOffersMore(i: Interface, j: Interface)
    requires IsSubtype(i, j)
    ensures Offers(j) <= Offers(i)
    decreases Depth(i)
  {
    if i != j {
      var k :| k in Extends(i) && IsSubtype(k, j);
      SubtypeOffersMore(k, j);
    }
  }

  /** The customer store is full-capability; of the four default methods the user store
      offers `get` alone, so no holder of it can add, remove or update through them
      (`getData()`, declared by `Data`, still hands out the set itself). */
  lemma StoreCapabilities()
    ensures Offers(Implements(CustomerRepositoryClass)) == {AddOp, GetOp, RemoveOp, UpdateOp}
    ensures Offers(Implements(UserRepositoryClass)) == {GetOp}
    ensures IsSubtype(Implements(CustomerRepositoryClass), AddI)
    ensures IsSubtype(Implements(CustomerRepositoryClass), UpdateI)
    ensures IsSubtype(Implements(UserRepositoryClass), GetI)
    ensures !IsSubtype(Implements(UserRepositoryClass), AddI)
    ensures !IsSubtype(Implements(UserRepositoryClass), UpdateI)
  {
    OffersByInterface();
    assert IsSubtype(AddI, AddI);
    assert IsSubtype(UpdateI, UpdateI);
    if IsSubtype(GetI, AddI) {
      SubtypeOffersMore(GetI, AddI);
    }
    if IsSubtype(GetI, UpdateI) {
      SubtypeOffersMore(GetI, UpdateI);
    }
  }
}

=== FILE: customers.dfy ===
/** `Customer`: an entity that carries nothing but its id and has no mutator. */
module Customers {
  import opened EntityBase

  datatype Customer = Customer(id: Uuid)

  /** `getId`, passed to the generic repository as its key. */
  function GetId(c: Customer): Uuid { c.id }

  /** The `EntityBase` view used by `equals` and `hashCode`. */
  function AsEntity(c: Customer): Entity { Entity(CustomerClass, c.id) }

  /** `Customer.create(id)`. */
  function Create(id: Uuid): (c: Customer)
    ensures GetId(c) == id
  {
    Customer(id)
  }

  /** Two customers created from one id are equal entities with equal hashes; created
      from different ids they are unequal. */
  lemma CreateEquality(a: Uuid, b: Uuid)
    ensures Equals(AsEntity(Create(a)), AnEntity(AsEntity(Create(b)))) <==> a == b
    ensures a == b ==> HashCode(AsEntity(Create(a))) == HashCode(AsEntity(Create(b)))
  {
  }
}

=== FILE: entity_base.dfy ===
/** `EntityBase`: every entity carries one final UUID, and equality and hashing depend on
    that id alone. */
module EntityBase {

  /** `java.util.UUID`: two 64-bit halves. Ids are treated as opaque values; only
      equality and `hashCode` look inside. */
  datatype Uuid = Uuid(mostSigBits: bv64, leastSigBits: bv64)

  /** The concrete subclasses of `EntityBase` in the core. */
  datatype Class = CustomerClass | UserClass | IngredientClass | PizzaClass

  /** The `EntityBase` part of an entity: its runtime class and its final id. The id is
      fixed when the value is built and no operation replaces it. */
  datatype Entity = Entity(cls: Class, id: Uuid)
  {
    function GetId(): Uuid { id }
  }

  /** What can be passed to `equals(Object)`: `null`, an entity of any subclass, or an
      object that is not an entity at all. */
  datatype Object = Null | AnEntity(entity: Entity) | NotAnEntity

  /** `this.equals(obj)`: true exactly for entities (of any subclass) with the same id. */
  function Equals(self: Entity, obj: Object): bool
  {
    match obj
    case AnEntity(e) => e.id == self.id
    case _ => false
  }

  /** `UUID.hashCode`: the xor of the two 32-bit halves of `mostSigBits ^ leastSigBits`. */
  function UuidHashCode(u: Uuid): bv32
  {
    var hilo := u.mostSigBits ^ u.leastSigBits;
    ((hilo >> 32) as bv32) ^ ((hilo & 0xFFFF_FFFF) as bv32)
  }

  /** `Objects.hash(id)`, that is `31 * 1 + id.hashCode()` in 32-bit arithmetic. */
  function HashCode(self: Entity): bv32
  {
    31 + UuidHashCode(self.id)
  }

  /** Building an entity with id `id` and then asking for it gives `id` back. */
  lemma GetIdReturnsConstructorId(cls: Class, id: Uuid)
    ensures Entity(cls, id).GetId() == id
  {
  }

  /** Equality is decided by the ids alone. */
  lemma EqualsIffSameId(a: Entity, b: Entity)
    ensures Equals(a, AnEntity(b)) <==> a.GetId() == b.GetId()
  {
  }

  /** The class plays no part: a Customer and a User with one UUID are equal. */
  lemma EqualsIgnoresClass(u: Uuid, c1: Class, c2: Class)
    ensures Equals(Entity(c1, u), AnEntity(Entity(c2, u)))
  {
  }

  /** `null` and non-entities are never equal to an entity. */
  lemma EqualsRejectsNonEntities(self: Entity)
    ensures !Equals(self, Null)
    ensures !Equals(self, NotAnEntity)
  {
  }

  /** Equality is an equivalence relation. */
  lemma EqualsIsEquivalence(a: Entity, b: Entity, c: Entity)
    ensures Equals(a, AnEntity(a))
    ensures Equals(a, AnEntity(b)) ==> Equals(b, AnEntity(a))
    ensures Equals(a, AnEntity(b)) && Equals(b, AnEntity(c)) ==> Equals(a, AnEntity(c))
  {
  }

  /** Equal entities have equal hash codes, as `HashSet` requires. */
  lemma HashCodeConsistentWithEquals(a: Entity, b: Entity)
    requires Equals(a, AnEntity(b))
    ensures HashCode(a) == HashCode(b)
  {
  }
}

=== FILE: features.dfy ===
/** `CreateCustomer.ServiceImpl.handler()`: create a customer with a newly generated id
    and add it through an `Add<Customer>` capability. The generated UUID is an input. */
module CreateCustomer {
  import opened EntityBase
  import Customers
  import Repository
  import Capabilities

  type Customer = Customers.Customer

  /** The capability the service is built with, and the operations its handler calls. */
  const Holds: Capabilities.Interface := Capabilities.AddI
  const Uses: set<Capabilities.Operation> := {Capabilities.AddOp}

  /** The handler never fails. With a fresh id the store gains exactly the new customer;
      an id already present (a UUID collision) is absorbed by the set and nothing
      changes. */
  function Handler(store: Repository.Store<Customer>, freshId: Uuid): (r: Repository.Store<Customer>)
    requires Repository.Keyed(store, Customers.GetId)
    ensures Repository.Keyed(r, Customers.GetId)
    ensures freshId !in store ==> |r| == |store| + 1 && r.Keys == store.Keys + {freshId}
    ensures freshId !in store ==> forall id :: id in store ==> r[id] == store[id]
    ensures freshId in store ==> r == store
    ensures Repository.Get(r, Customers.GetId, freshId).Ok?
    ensures freshId !in store ==>
              Repository.Get(r, Customers.GetId, freshId).value.id == freshId
  {
    Repository.Add(store, Customers.GetId, Customers.Create(freshId))
  }

  /** The `Add` capability suffices, and the customer store can be handed to the
      service. */
  lemma CapabilitySuffices()
    ensures Uses <= Capabilities.Offers(Holds)
    ensures Capabilities.IsSubtype(Capabilities.Implements(Capabilities.CustomerRepositoryClass), Holds)
  {
    Capabilities.OffersByInterface();
    Capabilities.StoreCapabilities();
  }
}

/** `UpdateCustomer.ServiceImpl.handler(id)`: get the customer, then update it with the
    very object that was fetched. */
module UpdateCustomer {
  import opened EntityBase
  import opened Results
  import Customers
  import Repository
  import Capabilities

  type Customer = Customers.Customer

  const Holds: Capabilities.Interface := Capabilities.UpdateI
  const Uses: set<Capabilities.Operation> := {Capabilities.GetOp, Capabilities.UpdateOp}

  /** The outcome of the call and the store after it; the NotFound exception leaves the
      store as it was. */
  function Handler(store: Repository.Store<Customer>, id: Uuid): (r: (Result<()>, Repository.Store<Customer>))
    requires Repository.Keyed(store, Customers.GetId)
    ensures r.0.Err? <==> id !in store
    ensures r.0.Err? ==> r.0.error == NotFound
    ensures r.1 == store
  {
    match Repository.Get(store, Customers.GetId, id)
    case Err(e) => (Err(e), store)
    case Ok(c) =>
      var after := Repository.Update(store, Customers.GetId, c);
      assert after == store;
      (Ok(()), after)
  }

  /** `Update` brings `get` with it, so it suffices; the customer store can be handed to
      the service. */
  lemma CapabilitySuffices()
    ensures Uses <= Capabilities.Offers(Holds)
    ensures Capabilities.IsSubtype(Capabilities.Implements(Capabilities.CustomerRepositoryClass), Holds)
  {
    Capabilities.OffersByInterface();
    Capabilities.StoreCapabilities();
  }
}

/** `GetUser.ServiceImpl.handler(id)`: one lookup whose result is discarded. */
module GetUser {
  import opened EntityBase
  import opened Results
  import Users
  import Repository
  import Capabilities
  import Stores

  type User = Users.User

  const Holds: Capabilities.Interface := Capabilities.GetI
  const Uses: set<Capabilities.Operation> := {Capabilities.GetOp}

  /** The outcome of the call and the store after it. */
  function Handler(store: Repository.Store<User>, id: Uuid): (r: (Result<()>, Repository.Store<User>))
    requires Repository.Keyed(store, Users.GetId)
    ensures r.0.Err? <==> id !in store
    ensures r.0.Err? ==> r.0.error == NotFound
    ensures r.1 == store
  {
    match Repository.Get(store, Users.GetId, id)
    case Err(e) => (Err(e), store)
    case Ok(_) => (Ok(()), store)
  }

  /** `Get` suffices, and the user store, which offers nothing else, can be handed to the
      service. */
  lemma CapabilitySuffices()
    ensures Uses <= Capabilities.Offers(Holds)
    ensures Capabilities.IsSubtype(Capabilities.Implements(Capabilities.UserRepositoryClass), Holds)
  {
    Capabilities.OffersByInterface();
    Capabilities.StoreCapabilities();
  }

  /** Handed the `UserRepository`, whose static set no capability call can fill, the handler fails
      NotFound whatever calls were made before. */
  lemma FailsOnUserRepository(repo: Stores.UserRepository, calls: seq<Stores.Call>, id: Uuid)
    ensures Handler(Stores.UserData(repo, Stores.Run(Stores.Initial, calls).0), id).0 == Err(NotFound)
  {
    Stores.EveryUserLookupFails(calls);
  }
}

=== FILE: ingredients.dfy ===
/** `Ingredient`: an entity with a mutable name and cost. Because `update` mutates an
    object in place and `copy` makes a new object with the same id, ingredients are
    modelled as objects in a heap: `Heap` maps each reference to the object's current
    state, and `next` is the first never-used reference. */
module Ingredients {
  import opened EntityBase

  /** The state of one `Ingredient` object. `cost` is a `double` in the source; it is a
      `real` here and is not validated. */
  datatype Ingredient = Ingredient(id: Uuid, name: string, cost: real)

  /** The `EntityBase` view used by `equals` and `hashCode`. */
  function AsEntity(i: Ingredient): Entity { Entity(IngredientClass, i.id) }

  /** A reference to an `Ingredient` object. */
  type Ref = nat

  /** All `Ingredient` objects allocated so far. */
  datatype Heap = Heap(objects: map<Ref, Ingredient>, next: Ref)

  /** Every allocated reference lies below `next`, so `next` is always fresh. */
  predicate Valid(h: Heap)
  {
    forall r :: r in h.objects ==> r < h.next
  }

  /** `h2` keeps every object of `h` with its state and only allocates beyond it. */
  predicate Grows(h: Heap, h2: Heap)
  {
    && h.next <= h2.next
    && forall r :: r in h.objects ==> r in h2.objects && h2.objects[r] == h.objects[r]
  }

  /** `new Ingredient(...)`: a fresh object holding `state`. */
  function New(h: Heap, state: Ingredient): (r: (Heap, Ref))
    requires Valid(h)
    ensures Valid(r.0) && Grows(h, r.0)
    ensures r.1 !in h.objects && h.next <= r.1 < r.0.next
    ensures r.0.objects.Keys == h.objects.Keys + {r.1} && r.0.objects[r.1] == state
  {
    (Heap(h.objects[h.next := state], h.next + 1), h.next)
  }

  /** `Ingredient.create(id, name, cost)`: a new object with exactly these fields. */
  function Create(h: Heap, id: Uuid, name: string, cost: real): (r: (Heap, Ref))
    requires Valid(h)
    ensures Valid(r.0) && Grows(h, r.0) && r.1 !in h.objects
    ensures r.1 in r.0.objects
    ensures var i := r.0.objects[r.1]; i.id == id && i.name == name && i.cost == cost
  {
    New(h, Ingredient(id, name, cost))
  }

  /** `ingredient.update(name, cost)`: both fields are set together, the id stays, and no
      other object changes. */
  function Update(h: Heap, ref: Ref, name: string, cost: real): (h2: Heap)
    requires Valid(h)
    requires ref in h.objects
    ensures Valid(h2) && h2.next == h.next && h2.objects.Keys == h.objects.Keys
    ensures h2.objects[ref].name == name && h2.objects[ref].cost == cost
    ensures AsEntity(h2.objects[ref]) == AsEntity(h.objects[ref])
    ensures forall r :: r in h.objects && r != ref ==> h2.objects[r] == h.objects[r]
  {
    h.(objects := h.objects[ref := h.objects[ref].(name := name, cost := cost)])
  }

  /** `Ingredient.copy(other)`: a new object with the same id, name and cost, which
      therefore equals the original. */
  function Copy(h: Heap, ref: Ref): (r: (Heap, Ref))
    requires Valid(h)
    requires ref in h.objects
    ensures Valid(r.0) && Grows(h, r.0)
    ensures r.1 != ref && r.1 !in h.objects && r.1 in r.0.objects
    ensures r.0.objects[r.1] == h.objects[ref]
    ensures Equals(AsEntity(r.0.objects[r.1]), AnEntity(AsEntity(h.objects[ref])))
  {
    New(h, h.objects[ref])
  }

  /** An update never changes equality or hash, so set membership is unaffected. */
  lemma UpdateKeepsIdentity(h: Heap, ref: Ref, name: string, cost: real, other: Entity)
    requires Valid(h)
    requires ref in h.objects
    ensures var before := AsEntity(h.objects[ref]);
            var after := AsEntity(Update(h, ref, name, cost).objects[ref]);
            && (Equals(after, AnEntity(other)) <==> Equals(before, AnEntity(other)))
            && HashCode(after) == HashCode(before)
  {
  }

  /** A copy is a separate object: updating the copy leaves the original as it was, and
      updating the original leaves the copy as it was. */
  lemma CopyIsolation(h: Heap, ref: Ref, name: string, cost: real)
    requires Valid(h)
    requires ref in h.objects
    ensures var (h1, c) := Copy(h, ref);
            && Update(h1, c, name, cost).objects[ref] == h.objects[ref]
            && Update(h1, ref, name, cost).objects[c] == h.objects[ref]
  {
  }
}

=== FILE: pizza.dfy ===
/** `Pizza`: an entity with name, description and url and a `Set<Ingredient>` of its own.
    The set is cloned on the way in (constructor) and on the way out (`getIngredients`,
    `copy`), so those paths never share an `Ingredient` object with the caller;
    `addIngedient` is the exception and stores the caller's object itself. The price is
    recomputed on every call from the current state of the objects in the set.

    The `Set<Ingredient>` is a sequence of references in iteration order whose objects
    carry distinct ids (membership is id-equality). These are the `HashSet` semantics of
    `BackingSet` (`DistinctIds`, `SetAdd`, `SetRemove`), restated here over references
    into the heap, because what a reference's id is depends on the heap. */
module Pizzas {
  import opened EntityBase
  import opened Ingredients

  /** `PROFIT = 1.2`. */
  const Profit: real := 6.0 / 5.0

  /** The state of one `Pizza` object. */
  datatype Pizza = Pizza(id: Uuid, name: string, description: string, url: string, ingredients: seq<Ref>)

  /** The `EntityBase` view used by `equals` and `hashCode`. */
  function AsEntity(p: Pizza): Entity { Entity(PizzaClass, p.id) }

  /** All references point at allocated objects. */
  predicate Allocated(h: Heap, refs: seq<Ref>)
  {
    forall i :: 0 <= i < |refs| ==> refs[i] in h.objects
  }

  /** The current state of the referenced objects, in order. */
  function States(h: Heap, refs: seq<Ref>): (xs: seq<Ingredient>)
    requires Allocated(h, refs)
    ensures |xs| == |refs|
    ensures forall i :: 0 <= i < |refs| ==> xs[i] == h.objects[refs[i]]
  {
    seq(|refs|, i requires 0 <= i < |refs| => h.objects[refs[i]])
  }

  /** No two ingredients share an id: what a `HashSet<Ingredient>` guarantees. */
  predicate DistinctIds(xs: seq<Ingredient>)
  {
    forall i, j :: 0 <= i < j < |xs| ==> xs[i].id != xs[j].id
  }

  /** The ids present. */
  predicate HasId(xs: seq<Ingredient>, id: Uuid)
  {
    exists i :: 0 <= i < |xs| && xs[i].id == id
  }

  /** `refs` is a valid `Set<Ingredient>` in `h`. */
  predicate IsSet(h: Heap, refs: seq<Ref>)
  {
    Allocated(h, refs) && DistinctIds(States(h, refs))
  }

  /** The pizza's own set is a valid set of allocated objects. */
  predicate WellFormed(h: Heap, p: Pizza)
  {
    Valid(h) && IsSet(h, p.ingredients)
  }

  /** The sum of the costs, in order. */
  function Total(xs: seq<Ingredient>): real
  {
    if |xs| == 0 then 0.0 else xs[0].cost + Total(xs[1..])
  }

  /** The sum over a concatenation is the sum of the sums. */
  lemma {:induction false} TotalAppend(xs: seq<Ingredient>, ys: seq<Ingredient>)
    ensures Total(xs + ys) == Total(xs) + Total(ys)
  {
    if |xs| == 0 {
      assert xs + ys == ys;
    } else {
      assert (xs + ys)[1..] == xs[1..] + ys;
      TotalAppend(xs[1..], ys);
    }
  }

  /** `getPrice()`: the sum of the current costs times the profit multiplier. */
  function GetPrice(h: Heap, p: Pizza): (price: real)
    requires Allocated(h, p.ingredients)
    ensures |p.ingredients| == 0 ==> price == 0.0
    ensures (forall i :: 0 <= i < |p.ingredients| ==> 0.0 <= h.objects[p.ingredients[i]].cost) ==>
              0.0 <= price
  {
    TotalNonNegative(States(h, p.ingredients));
    Total(States(h, p.ingredients)) * Profit
  }

  /** A sum of non-negative costs is non-negative. */
  lemma {:induction false} TotalNonNegative(xs: seq<Ingredient>)
    ensures (forall i :: 0 <= i < |xs| ==> 0.0 <= xs[i].cost) ==> 0.0 <= Total(xs)
  {
    if |xs| > 0 {
      var tail := xs[1..];
      TotalNonNegative(tail);
      assert forall j :: 0 <= j < |tail| ==> tail[j] == xs[j + 1];
    }
  }

  /** `cloneIngredients(set)`: a new object for each element, in order. */
  function CloneIngredients(h: Heap, refs: seq<Ref>): (r: (Heap, seq<Ref>))
    requires Valid(h) && Allocated(h, refs)
    ensures Valid(r.0) && Grows(h, r.0)
    ensures |r.1| == |refs| && Allocated(r.0, r.1)
    ensures forall i :: 0 <= i < |r.1| ==> h.next <= r.1[i]
    ensures States(r.0, r.1) == States(h, refs)
    decreases |refs|
  {
    if |refs| == 0 then (h, [])
    else
      var init := CloneIngredients(h, refs[..|refs| - 1]);
      var last := Ingredients.Copy(init.0, refs[|refs| - 1]);
      (last.0, init.1 + [last.1])
  }

  /** `new Pizza(...)` / `Pizza.create(...)`: the fields as given and a clone of the
      caller's set. */
  function Create(h: Heap, id: Uuid, name: string, description: string, url: string,
                  ingredients: seq<Ref>): (r: (Heap, Pizza))
    requires Valid(h) && IsSet(h, ingredients)
    ensures WellFormed(r.0, r.1) && Grows(h, r.0)
    ensures r.1.id == id && r.1.name == name && r.1.description == description && r.1.url == url
    ensures States(r.0, r.1.ingredients) == States(h, ingredients)
    ensures forall i :: 0 <= i < |r.1.ingredients| ==> r.1.ingredients[i] !in h.objects
  {
    var (h2, refs) := CloneIngredients(h, ingredients);
    (h2, Pizza(id, name, description, url, refs))
  }

  /** `getIngredients()`: a fresh clone of the pizza's set; the pizza is unchanged. */
  function GetIngredients(h: Heap, p: Pizza): (r: (Heap, seq<Ref>))
    requires WellFormed(h, p)
    ensures Valid(r.0) && Grows(h, r.0) && WellFormed(r.0, p)
    ensures IsSet(r.0, r.1) && States(r.0, r.1) == States(h, p.ingredients)
    ensures forall i :: 0 <= i < |r.1| ==> r.1[i] !in h.objects
  {
    CloneIngredients(h, p.ingredients)
  }

  /** `addIngedient(ingredient)`: `HashSet.add` of the caller's object itself; ignored
      when an ingredient with its id is already in the set. */
  function AddIngedient(h: Heap, p: Pizza, ref: Ref): (q: Pizza)
    requires WellFormed(h, p) && ref in h.objects
    ensures WellFormed(h, q)
    ensures q.id == p.id && q.name == p.name && q.description == p.description && q.url == p.url
    ensures HasId(States(h, q.ingredients), h.objects[ref].id)
    ensures HasId(States(h, p.ingredients), h.objects[ref].id) ==> q == p
    ensures !HasId(States(h, p.ingredients), h.objects[ref].id) ==> q.ingredients == p.ingredients + [ref]
  {
    if HasId(States(h, p.ingredients), h.objects[ref].id) then p
    else
      var q := p.(ingredients := p.ingredients + [ref]);
      assert States(h, q.ingredients)[|p.ingredients|] == h.objects[ref];
      q
  }

  /** The references of `refs` whose object does not have id `id`, in order. */
  function Without(h: Heap, refs: seq<Ref>, id: Uuid): (r: seq<Ref>)
    requires Allocated(h, refs)
    ensures Allocated(h, r)
    ensures forall i :: 0 <= i < |r| ==> h.objects[r[i]].id != id
    ensures forall i :: 0 <= i < |refs| && h.objects[refs[i]].id != id ==> refs[i] in r
    ensures forall i :: 0 <= i < |r| ==> r[i] in refs
    decreases |refs|
  {
    if |refs| == 0 then []
    else
      var rest := Without(h, refs[1..], id);
      if h.objects[refs[0]].id == id then rest else [refs[0]] + rest
  }

  /** `removeIngredient(ingredient)`: `HashSet.remove` drops the pizza's own ingredient
      with the argument's id, whatever the argument's other fields; absent, nothing
      happens. */
  function RemoveIngredient(h: Heap, p: Pizza, ref: Ref): (q: Pizza)
    requires WellFormed(h, p) && ref in h.objects
    ensures WellFormed(h, q)
    ensures q.id == p.id && q.name == p.name && q.description == p.description && q.url == p.url
    ensures !HasId(States(h, q.ingredients), h.objects[ref].id)
    ensures forall i :: 0 <= i < |q.ingredients| ==> q.ingredients[i] in p.ingredients
    ensures forall i :: 0 <= i < |p.ingredients| && h.objects[p.ingredients[i]].id != h.objects[ref].id
              ==> p.ingredients[i] in q.ingredients
    ensures !HasId(States(h, p.ingredients), h.objects[ref].id) ==> q == p
  {
    var id := h.objects[ref].id;
    WithoutKeepsDistinct(h, p.ingredients, id);
    WithoutOfAbsent(h, p.ingredients, id);
    p.(ingredients := Without(h, p.ingredients, id))
  }

  /** `update(name, description, url)`: all three fields together; id and ingredients
      stay. */
  function Update(p: Pizza, name: string, description: string, url: string): (q: Pizza)
    ensures q.id == p.id && q.ingredients == p.ingredients
    ensures q.name == name && q.description == description && q.url == url
  {
    p.(name := name, description := description, url := url)
  }

  /** `Pizza.copy(other)`: `new Pizza(id, name, description, url, other.getIngredients())`,
      which clones the set twice; the copy shares no ingredient object with the original
      and equals it. */
  function Copy(h: Heap, p: Pizza): (r: (Heap, Pizza))
    requires WellFormed(h, p)
    ensures WellFormed(r.0, r.1) && WellFormed(r.0, p) && Grows(h, r.0)
    ensures r.1.id == p.id && r.1.name == p.name && r.1.description == p.description && r.1.url == p.url
    ensures States(r.0, r.1.ingredients) == States(h, p.ingredients)
    ensures forall i :: 0 <= i < |r.1.ingredients| ==> r.1.ingredients[i] !in h.objects
    ensures forall i, j :: 0 <= i < |r.1.ingredients| && 0 <= j < |p.ingredients|
              ==> r.1.ingredients[i] != p.ingredients[j]
    ensures Equals(AsEntity(r.1), AnEntity(AsEntity(p)))
  {
    var (h1, refs) := GetIngredients(h, p);
    Create(h1, p.id, p.name, p.description, p.url, refs)
  }

  /** An object whose id differs from every id of a set can be put in front of it. */
  lemma ConsDistinct(h: Heap, x: Ref, rest: seq<Ref>)
    requires IsSet(h, rest) && x in h.objects
    requires forall j :: 0 <= j < |rest| ==> h.objects[x].id != h.objects[rest[j]].id
    ensures IsSet(h, [x] + rest)
  {
    var r := [x] + rest;
    assert forall j :: 0 < j < |r| ==> r[j] == rest[j - 1];
  }

  /** Removing by id keeps the remaining ids distinct. */
  lemma {:induction false} WithoutKeepsDistinct(h: Heap, refs: seq<Ref>, id: Uuid)
    requires IsSet(h, refs)
    ensures IsSet(h, Without(h, refs, id))
    decreases |refs|
  {
    if |refs| > 0 {
      var tail := refs[1..];
      assert States(h, tail) == States(h, refs)[1..];
      WithoutKeepsDistinct(h, tail, id);
      var rest := Without(h, tail, id);
      if h.objects[refs[0]].id != id {
        forall j | 0 <= j < |rest|
          ensures h.objects[refs[0]].id != h.objects[rest[j]].id
        {
          var k :| 0 <= k < |tail| && tail[k] == rest[j];
          assert States(h, refs)[k + 1] == h.objects[rest[j]];
        }
        ConsDistinct(h, refs[0], rest);
      }
    }
  }

  /** Removing an id that no element carries keeps every reference. */
  lemma {:induction false} WithoutOfAbsent(h: Heap, refs: seq<Ref>, id: Uuid)
    requires Allocated(h, refs)
    ensures (forall i :: 0 <= i < |refs| ==> h.objects[refs[i]].id != id) ==> Without(h, refs, id) == refs
    decreases |refs|
  {
    if |refs| > 0 {
      WithoutOfAbsent(h, refs[1..], id);
      assert refs == [refs[0]] + refs[1..];
    }
  }

  /** The summed cost of the ingredients with id `id`. */
  function IdCost(xs: seq<Ingredient>, id: Uuid): real
  {
    if |xs| == 0 then 0.0 else (if xs[0].id == id then xs[0].cost else 0.0) + IdCost(xs[1..], id)
  }

  /** Removing id `id` takes exactly its cost out of the total. */
  lemma {:induction false} TotalWithout(h: Heap, refs: seq<Ref>, id: Uuid)
    requires Allocated(h, refs)
    ensures Total(States(h, Without(h, refs, id))) + IdCost(States(h, refs), id) == Total(States(h, refs))
    decreases |refs|
  {
    if |refs| > 0 {
      var tail := refs[1..];
      var xs := States(h, refs);
      var ys := States(h, tail);
      assert ys == xs[1..];
      assert Total(xs) == xs[0].cost + Total(ys);
      assert IdCost(xs, id) == (if xs[0].id == id then xs[0].cost else 0.0) + IdCost(ys, id);
      TotalWithout(h, tail, id);
      var rest := Without(h, tail, id);
      assert Total(States(h, rest)) + IdCost(ys, id) == Total(ys);
      if xs[0].id != id {
        assert Without(h, refs, id) == [refs[0]] + rest;
        TotalCons(h, refs[0], rest);
      } else {
        assert Without(h, refs, id) == rest;
      }
    }
  }

  /** The total of an object followed by a set is its cost plus the set's total. */
  lemma TotalCons(h: Heap, x: Ref, rest: seq<Ref>)
    requires x in h.objects && Allocated(h, rest)
    ensures Total(States(h, [x] + rest)) == h.objects[x].cost + Total(States(h, rest))
  {
    var zs := States(h, [x] + rest);
    assert zs[1..] == States(h, rest);
  }

  /** With distinct ids, the cost of an id is that of its one ingredient, or zero. */
  lemma {:induction false} IdCostOfSet(xs: seq<Ingredient>, id: Uuid)
    requires DistinctIds(xs)
    ensures !HasId(xs, id) ==> IdCost(xs, id) == 0.0
    ensures forall k :: 0 <= k < |xs| && xs[k].id == id ==> IdCost(xs, id) == xs[k].cost
  {
    if |xs| > 0 {
      var tail := xs[1..];
      assert DistinctIds(tail);
      IdCostOfSet(tail, id);
      forall k | 0 < k < |xs| && xs[k].id == id
        ensures IdCost(xs, id) == xs[k].cost
      {
        assert tail[k - 1] == xs[k];
      }
    }
  }

  /** The next `getPrice` after `addIngedient` of a new id includes that ingredient's
      cost; with the id already present the price is unchanged. */
  lemma PriceAfterAdd(h: Heap, p: Pizza, ref: Ref)
    requires WellFormed(h, p) && ref in h.objects
    ensures !HasId(States(h, p.ingredients), h.objects[ref].id) ==>
              GetPrice(h, AddIngedient(h, p, ref)) == GetPrice(h, p) + h.objects[ref].cost * Profit
    ensures HasId(States(h, p.ingredients), h.objects[ref].id) ==>
              GetPrice(h, AddIngedient(h, p, ref)) == GetPrice(h, p)
  {
    if !HasId(States(h, p.ingredients), h.objects[ref].id) {
      assert States(h, p.ingredients + [ref]) == States(h, p.ingredients) + [h.objects[ref]];
      TotalAppend(States(h, p.ingredients), [h.objects[ref]]);
    }
  }

  /** The next `getPrice` after `removeIngredient` no longer includes the cost of the
      pizza's own ingredient with the argument's id. */
  lemma PriceAfterRemove(h: Heap, p: Pizza, ref: Ref)
    requires WellFormed(h, p) && ref in h.objects
    ensures forall k :: 0 <= k < |p.ingredients| && h.objects[p.ingredients[k]].id == h.objects[ref].id ==>
              GetPrice(h, RemoveIngredient(h, p, ref)) == GetPrice(h, p) - h.objects[p.ingredients[k]].cost * Profit
    ensures !HasId(States(h, p.ingredients), h.objects[ref].id) ==>
              GetPrice(h, RemoveIngredient(h, p, ref)) == GetPrice(h, p)
  {
    var id := h.objects[ref].id;
    TotalWithout(h, p.ingredients, id);
    IdCostOfSet(States(h, p.ingredients), id);
  }

  /** The price of a new pizza is the profit on the caller's costs at construction. */
  lemma PriceOfCreate(h: Heap, id: Uuid, name: string, description: string, url: string,
                      ingredients: seq<Ref>)
    requires Valid(h) && IsSet(h, ingredients)
    ensures var (h1, p) := Create(h, id, name, description, url, ingredients);
            GetPrice(h1, p) == Total(States(h, ingredients)) * Profit
  {
  }

  /** Constructor isolation: a later update of any of the caller's ingredient objects
      changes neither the pizza's ingredients nor its price. */
  lemma ConstructorIsolation(h: Heap, id: Uuid, name: string, description: string, url: string,
                             ingredients: seq<Ref>, k: nat, newName: string, newCost: real)
    requires Valid(h) && IsSet(h, ingredients)
    requires k < |ingredients|
    ensures var (h1, p) := Create(h, id, name, description, url, ingredients);
            var h2 := Ingredients.Update(h1, ingredients[k], newName, newCost);
            && States(h2, p.ingredients) == States(h, ingredients)
            && GetPrice(h2, p) == GetPrice(h1, p)
  {
    var (h1, p) := Create(h, id, name, description, url, ingredients);
    var h2 := Ingredients.Update(h1, ingredients[k], newName, newCost);
    assert States(h2, p.ingredients) == States(h1, p.ingredients);
  }

  /** `getIngredients` isolation: the returned objects equal the pizza's own field for
      field, and updating one of them leaves the pizza's ingredients and price as they
      were. */
  lemma GetIngredientsIsolation(h: Heap, p: Pizza, k: nat, newName: string, newCost: real)
    requires WellFormed(h, p)
    requires k < |p.ingredients|
    ensures var (h1, out) := GetIngredients(h, p);
            var h2 := Ingredients.Update(h1, out[k], newName, newCost);
            && States(h1, out) == States(h, p.ingredients)
            && States(h2, p.ingredients) == States(h, p.ingredients)
            && GetPrice(h2, p) == GetPrice(h, p)
  {
    var (h1, out) := GetIngredients(h, p);
    var h2 := Ingredients.Update(h1, out[k], newName, newCost);
    assert States(h2, p.ingredients) == States(h1, p.ingredients);
  }

  /** Copy isolation: updating an ingredient object of the copy leaves the original
      unchanged, and updating one of the original leaves the copy unchanged. */
  lemma CopyIsolation(h: Heap, p: Pizza, k: nat, newName: string, newCost: real)
    requires WellFormed(h, p)
    requires k < |p.ingredients|
    ensures var (h1, q) := Copy(h, p);
            && States(Ingredients.Update(h1, q.ingredients[k], newName, newCost), p.ingredients)
               == States(h, p.ingredients)
            && States(Ingredients.Update(h1, p.ingredients[k], newName, newCost), q.ingredients)
               == States(h, p.ingredients)
            && GetPrice(h1, q) == GetPrice(h, p)
  {
    var (h1, q) := Copy(h, p);
    var hq := Ingredients.Update(h1, q.ingredients[k], newName, newCost);
    var hp := Ingredients.Update(h1, p.ingredients[k], newName, newCost);
    assert States(h1, p.ingredients) == States(h, p.ingredients);
    assert forall i :: 0 <= i < |p.ingredients| ==> p.ingredients[i] != q.ingredients[k];
    assert States(hq, p.ingredients) == States(h1, p.ingredients);
    assert forall i :: 0 <= i < |q.ingredients| ==> q.ingredients[i] != p.ingredients[k];
    assert States(hp, q.ingredients) == States(h1, q.ingredients);
  }

  /** `addIngedient` does NOT isolate: after adding the caller's object, the caller's
      later update shows in the pizza's price. */
  lemma AddIngedientAliases(h: Heap, p: Pizza, ref: Ref, newName: string, newCost: real)
    requires WellFormed(h, p) && ref in h.objects
    requires !HasId(States(h, p.ingredients), h.objects[ref].id)
    ensures var q := AddIngedient(h, p, ref);
            GetPrice(Ingredients.Update(h, ref, newName, newCost), q) == GetPrice(h, p) + newCost * Profit
  {
    var q := AddIngedient(h, p, ref);
    var h2 := Ingredients.Update(h, ref, newName, newCost);
    assert ref !in p.ingredients;
    assert States(h2, p.ingredients) == States(h, p.ingredients);
    assert States(h2, q.ingredients) == States(h2, p.ingredients) + [h2.objects[ref]];
    TotalAppend(States(h2, p.ingredients), [h2.objects[ref]]);
  }

  /** Ingredient ids are final, so no update of any ingredient object, aliased or not,
      can put two equal ingredients into a pizza's set. */
  lemma IngredientUpdateKeepsWellFormed(h: Heap, p: Pizza, ref: Ref, newName: string, newCost: real)
    requires WellFormed(h, p) && ref in h.objects
    ensures WellFormed(Ingredients.Update(h, ref, newName, newCost), p)
  {
    var h2 := Ingredients.Update(h, ref, newName, newCost);
    assert forall i :: 0 <= i < |p.ingredients| ==> States(h2, p.ingredients)[i].id == States(h, p.ingredients)[i].id;
  }
}

=== FILE: repository.dfy ===
/** The capability interfaces `Get`, `Add`, `Remove` and `Update` (and their composition
    `Repository`) as functions over one backing collection.

    The backing collection is a `HashSet<T>` whose membership test is `EntityBase.equals`,
    so it holds at most one entity per id. It is modelled here as a map from id to the
    stored entity; `BackingSet` shows that the set operations agree with this view. */
module Repository {
  import opened EntityBase
  import opened Results

  /** The backing set returned by `getData()`, keyed by id. */
  type Store<T> = map<Uuid, T>

  /** Every entry is filed under its own id (`key` is the entity type's `getId`). */
  predicate Keyed<T>(s: Store<T>, key: T -> Uuid)
  {
    forall id :: id in s ==> key(s[id]) == id
  }

  /** `Get.get(id)`: the stored entity whose `getId()` equals `id`, or NotFound. */
  function Get<T>(s: Store<T>, key: T -> Uuid, id: Uuid): (r: Result<T>)
    requires Keyed(s, key)
    ensures r.Ok? <==> exists k :: k in s && key(s[k]) == id
    ensures r.Ok? ==> key(r.value) == id && id in s && r.value == s[id]
    ensures r.Err? ==> r.error.message == NotFoundMessage
  {
    Unwrap(if id in s then Some(s[id]) else None)
  }

  /** `Add.add(e)`: `HashSet.add` absorbs an entity whose id is already present. */
  function Add<T>(s: Store<T>, key: T -> Uuid, e: T): (r: Store<T>)
    requires Keyed(s, key)
    ensures Keyed(r, key)
    ensures key(e) in r
    ensures key(e) in s ==> r == s
    ensures key(e) !in s ==> r.Keys == s.Keys + {key(e)} && r[key(e)] == e
    ensures key(e) !in s ==> forall id :: id in s ==> r[id] == s[id]
    ensures |r| == if key(e) in s then |s| else |s| + 1
  {
    if key(e) in s then s else s[key(e) := e]
  }

  /** `Remove.remove(e)`: drops whatever entry is equal to `e`, that is, has `e`'s id. */
  function Remove<T>(s: Store<T>, key: T -> Uuid, e: T): (r: Store<T>)
    requires Keyed(s, key)
    ensures Keyed(r, key)
    ensures r.Keys == s.Keys - {key(e)}
    ensures forall id :: id in r ==> r[id] == s[id]
    ensures |r| == if key(e) in s then |s| - 1 else |s|
  {
    s - {key(e)}
  }

  /** `Update.update(e)`: remove then add, so `e` replaces whatever had its id. */
  function Update<T>(s: Store<T>, key: T -> Uuid, e: T): (r: Store<T>)
    requires Keyed(s, key)
    ensures Keyed(r, key)
    ensures r == s[key(e) := e]
    ensures r.Keys == s.Keys + {key(e)} && r[key(e)] == e
    ensures forall id :: id in s && id != key(e) ==> r[id] == s[id]
    ensures |r| == if key(e) in s then |s| else |s| + 1
  {
    var removed := Remove(s, key, e);
    ReplaceAfterRemove(s, key(e), e);
    Add(removed, key, e)
  }

  /** Filing a value under a key that was just removed is filing it in the original map. */
  lemma ReplaceAfterRemove<K, V>(m: map<K, V>, k: K, v: V)
    ensures (m - {k})[k := v] == m[k := v]
  {
  }

  /** Get after a fresh add returns the added entity; an add of a present id changes no
      lookup. */
  lemma GetAfterAdd<T>(s: Store<T>, key: T -> Uuid, e: T, id: Uuid)
    requires Keyed(s, key)
    ensures key(e) !in s ==> Get(Add(s, key, e), key, key(e)) == Ok(e)
    ensures key(e) in s ==> Get(Add(s, key, e), key, id) == Get(s, key, id)
    ensures id != key(e) ==> Get(Add(s, key, e), key, id) == Get(s, key, id)
  {
  }

  /** Get after remove fails NotFound; other ids are looked up as before. */
  lemma GetAfterRemove<T>(s: Store<T>, key: T -> Uuid, e: T, id: Uuid)
    requires Keyed(s, key)
    ensures Get(Remove(s, key, e), key, key(e)) == Err(NotFound)
    ensures id != key(e) ==> Get(Remove(s, key, e), key, id) == Get(s, key, id)
  {
  }

  /** Get after update returns exactly the entity passed to update. */
  lemma GetAfterUpdate<T>(s: Store<T>, key: T -> Uuid, e: T, id: Uuid)
    requires Keyed(s, key)
    ensures Get(Update(s, key, e), key, key(e)) == Ok(e)
    ensures id != key(e) ==> Get(Update(s, key, e), key, id) == Get(s, key, id)
  {
  }

  /** Adding twice has the effect of adding once. */
  lemma AddIdempotent<T>(s: Store<T>, key: T -> Uuid, e: T)
    requires Keyed(s, key)
    ensures Add(Add(s, key, e), key, e) == Add(s, key, e)
  {
  }

  /** Removing twice has the effect of removing once. */
  lemma RemoveIdempotent<T>(s: Store<T>, key: T -> Uuid, e: T)
    requires Keyed(s, key)
    ensures Remove(Remove(s, key, e), key, e) == Remove(s, key, e)
  {
    assert Remove(s, key, e) - {key(e)} == Remove(s, key, e);
  }

  /** Updating twice has the effect of updating once. */
  lemma UpdateIdempotent<T>(s: Store<T>, key: T -> Uuid, e: T)
    requires Keyed(s, key)
    ensures Update(Update(s, key, e), key, e) == Update(s, key, e)
  {
    var once := Update(s, key, e);
    assert once[key(e) := e] == once;
  }

  /** Removal goes by id: any entity with the same id removes the stored one. */
  lemma RemoveById<T>(s: Store<T>, key: T -> Uuid, e1: T, e2: T)
    requires Keyed(s, key)
    requires key(e1) == key(e2)
    ensures Remove(s, key, e1) == Remove(s, key, e2)
  {
  }

  /** With no existence check, update of an absent id is an add. */
  lemma UpdateOfAbsentIsAdd<T>(s: Store<T>, key: T -> Uuid, e: T)
    requires Keyed(s, key)
    requires key(e) !in s
    ensures Update(s, key, e) == Add(s, key, e)
  {
  }

  /** The `Repository` scenarios over one backing set: add then get; add, remove, get;
      add then update with an id-equal entity; add then add an id-equal entity. */
  lemma RepositoryScenarios<T>(s: Store<T>, key: T -> Uuid, e: T, e2: T)
    requires Keyed(s, key)
    requires key(e) !in s
    requires key(e2) == key(e)
    ensures Get(Add(s, key, e), key, key(e)) == Ok(e)
    ensures Get(Remove(Add(s, key, e), key, e), key, key(e)) == Err(NotFound)
    ensures Remove(Add(s, key, e), key, e) == s
    ensures Get(Update(Add(s, key, e), key, e2), key, key(e)) == Ok(e2)
    ensures Get(Add(Add(s, key, e), key, e2), key, key(e)) == Ok(e)
  {
  }
}

=== FILE: results.dfy ===
/** The single domain error of the repository core and the result type that carries it.
    `Get.unwrap` turns an empty `Optional` into a `NotFondException`; here that exception
    is the only failure variant of `Result`. */
module Results {

  /** The message every failed lookup carries. */
  const NotFoundMessage: string := "No se encuentra el registro"

  /** `NotFondException(message)`: the runtime exception thrown on a lookup miss. */
  datatype NotFond = NotFondException(message: string)

  /** The failure a lookup miss produces. */
  const NotFound: NotFond := NotFondException(NotFoundMessage)

  /** A value, or the exception that took its place. */
  datatype Result<+T> = Ok(value: T) | Err(error: NotFond)

  /** `java.util.Optional`, and the `null` of a missing value. */
  datatype Option<+T> = None | Some(value: T)

  /** `Get.unwrap`, that is `Optional.orElseThrow`: a present value is returned as is, an
      absent one becomes the NotFound failure; no value is ever invented. */
  function Unwrap<T>(o: Option<T>): (r: Result<T>)
    ensures r.Ok? <==> o.Some?
    ensures r.Ok? ==> r.value == o.value
    ensures r.Err? ==> r.error.message == NotFoundMessage
  {
    match o
    case Some(v) => Ok(v)
    case None => Err(NotFound)
  }
}

=== FILE: stores.dfy ===
/** `CustomerRepository` and `UserRepository`: each class keeps its backing `HashSet` in a
    `static` field that starts empty, so every instance of the class works on one shared
    set. The two static sets are modelled as one explicit program state, `Statics`, that
    every call takes and returns. */
module Stores {
  import opened EntityBase
  import opened Results
  import opened Customers
  import opened Users
  import Repository

  /** The two static backing sets. */
  datatype Statics = Statics(customers: Repository.Store<Customer>, users: Repository.Store<User>)

  /** Class initialisation: both static sets are empty. */
  const Initial: Statics := Statics(map[], map[])

  /** Both sets file every entity under its own id. */
  predicate Valid(st: Statics)
  {
    Repository.Keyed(st.customers, Customers.GetId) && Repository.Keyed(st.users, Users.GetId)
  }

  /** A `new CustomerRepository()`; `instance` tells instances apart. */
  datatype CustomerRepository = CustomerRepository(instance: nat)

  /** A `new UserRepository()`; `instance` tells instances apart. */
  datatype UserRepository = UserRepository(instance: nat)

  /** `CustomerRepository.getData()`: the static set, whichever instance is asked. */
  function CustomerData(repo: CustomerRepository, st: Statics): Repository.Store<Customer>
  {
    st.customers
  }

  /** `UserRepository.getData()`: the static set, whichever instance is asked. */
  function UserData(repo: UserRepository, st: Statics): Repository.Store<User>
  {
    st.users
  }

  /** `getData()` returns the same set through every instance, and at program start that
      set is empty. */
  lemma InstancesShareData(st: Statics, c1: CustomerRepository, c2: CustomerRepository,
                           u1: UserRepository, u2: UserRepository)
    ensures CustomerData(c1, st) == CustomerData(c2, st)
    ensures UserData(u1, st) == UserData(u2, st)
    ensures CustomerData(c1, Initial) == map[] && UserData(u1, Initial) == map[]
  {
  }

  /** Every call through the capability methods of the two stores: the full `Repository`
      set (`add`, `get`, `remove`, `update`) on customers, `get` alone on users. A direct
      `getData()` call, which hands out the mutable static set itself, is not a call here. */
  datatype Call =
    | CustomerAdd(crepo: CustomerRepository, customer: Customer)
    | CustomerGet(crepo: CustomerRepository, id: Uuid)
    | CustomerRemove(crepo: CustomerRepository, customer: Customer)
    | CustomerUpdate(crepo: CustomerRepository, customer: Customer)
    | UserGet(urepo: UserRepository, id: Uuid)

  /** What a call returns: nothing, the entity found, or the NotFound exception. */
  datatype Reply = Done | FoundCustomer(c: Customer) | FoundUser(u: User) | Failed(error: NotFond)

  /** One call against the static sets. */
  function Step(st: Statics, call: Call): (r: (Statics, Reply))
    requires Valid(st)
    ensures Valid(r.0)
    ensures r.0.users == st.users
    ensures call.UserGet? || call.CustomerGet? ==> r.0 == st
    ensures r.1.Failed? <==>
              (call.CustomerGet? && call.id !in st.customers) || (call.UserGet? && call.id !in st.users)
    ensures r.1.Failed? ==> r.1.error == NotFound
    ensures call.CustomerAdd? ==> r.0.customers == Repository.Add(st.customers, Customers.GetId, call.customer)
    ensures call.CustomerRemove? ==> r.0.customers == Repository.Remove(st.customers, Customers.GetId, call.customer)
    ensures call.CustomerUpdate? ==> r.0.customers == Repository.Update(st.customers, Customers.GetId, call.customer)
    ensures r.1.FoundCustomer? ==> call.CustomerGet? && call.id in st.customers && r.1.c == st.customers[call.id]
    ensures r.1.FoundUser? ==> call.UserGet? && call.id in st.users && r.1.u == st.users[call.id]
    ensures r.1.Done? <==> !(call.CustomerGet? || call.UserGet?)
  {
    match call
    case CustomerAdd(repo, c) =>
      (st.(customers := Repository.Add(CustomerData(repo, st), Customers.GetId, c)), Done)
    case CustomerRemove(repo, c) =>
      (st.(customers := Repository.Remove(CustomerData(repo, st), Customers.GetId, c)), Done)
    case CustomerUpdate(repo, c) =>
      (st.(customers := Repository.Update(CustomerData(repo, st), Customers.GetId, c)), Done)
    case CustomerGet(repo, id) =>
      (match Repository.Get(CustomerData(repo, st), Customers.GetId, id)
       case Ok(c) => (st, FoundCustomer(c))
       case Err(e) => (st, Failed(e)))
    case UserGet(repo, id) =>
      match Repository.Get(UserData(repo, st), Users.GetId, id)
      case Ok(u) => (st, FoundUser(u))
      case Err(e) => (st, Failed(e))
  }

  /** A sequence of calls, run in order; one reply per call. */
  function Run(st: Statics, calls: seq<Call>): (r: (Statics, seq<Reply>))
    requires Valid(st)
    ensures Valid(r.0)
    ensures |r.1| == |calls|
    decreases |calls|
  {
    if |calls| == 0 then (st, [])
    else
      var first := Step(st, calls[0]);
      var rest := Run(first.0, calls[1..]);
      (rest.0, [first.1] + rest.1)
  }

  /** No call reachable through either store changes the user set, so every user lookup
      in a run is answered from the set the run started with. */
  lemma {:induction false} RunNeverChangesUsers(st: Statics, calls: seq<Call>)
    requires Valid(st)
    ensures Run(st, calls).0.users == st.users
    ensures forall i :: 0 <= i < |calls| && calls[i].UserGet? ==>
              (Run(st, calls).1[i].Failed? <==> calls[i].id !in st.users)
    decreases |calls|
  {
    if |calls| > 0 {
      var first := Step(st, calls[0]);
      var rest := Run(first.0, calls[1..]);
      var replies := Run(st, calls).1;
      assert replies == [first.1] + rest.1;
      RunNeverChangesUsers(first.0, calls[1..]);
      forall i | 0 < i < |calls| && calls[i].UserGet?
        ensures replies[i].Failed? <==> calls[i].id !in st.users
      {
        assert calls[1..][i - 1] == calls[i];
        assert replies[i] == rest.1[i - 1];
      }
    }
  }

  /** From program start, whatever capability calls are made, every `UserRepository.get`
      fails NotFound: no such call fills the user set. */
  lemma EveryUserLookupFails(calls: seq<Call>)
    ensures Run(Initial, calls).0.users == map[]
    ensures forall i :: 0 <= i < |calls| && calls[i].UserGet? ==> Run(Initial, calls).1[i].Failed?
  {
    RunNeverChangesUsers(Initial, calls);
  }

  /** Before any add, a customer lookup fails NotFound. */
  lemma CustomerGetBeforeAdd(repo: CustomerRepository, id: Uuid)
    ensures Step(Initial, CustomerGet(repo, id)).1 == Failed(NotFound)
  {
  }

  /** The set is shared: what one instance adds, another instance finds. */
  lemma SharedAcrossInstances(st: Statics, r1: CustomerRepository, r2: CustomerRepository, c: Customer)
    requires Valid(st)
    requires c.id !in st.customers
    ensures Step(Step(st, CustomerAdd(r1, c)).0, CustomerGet(r2, c.id)).1 == FoundCustomer(c)
  {
  }

  /** A user lookup changes nothing, so asking twice gives the same answer. */
  lemma UserGetDeterministic(st: Statics, r1: UserRepository, r2: UserRepository, id: Uuid)
    requires Valid(st)
    ensures Step(Step(st, UserGet(r1, id)).0, UserGet(r2, id)).1 == Step(st, UserGet(r1, id)).1
  {
  }
}

=== FILE: stream_sql.dfy ===
/** `StreamSql.leftJoin`: a left outer join of a stream with a collection under a
    predicate. Each left element is paired with every matching right element in the
    collection's order, or once with `null` (here `None`) when nothing matches. The
    stream and the collection are sequences in encounter order, and the collection holds
    no `null`: a `null` element the predicate accepted would give a row that looks like
    the no-match row. */
module StreamSql {
  import opened Results

  /** `StreamSql.Pair`: two final fields, stored as given. */
  datatype Pair<X, Y> = Pair(first: X, second: Y)

  /** The elements of `right` that `pred` accepts with `a`, in `right` order. */
  function Matches<A, B>(a: A, right: seq<B>, pred: (A, B) -> bool): (ms: seq<B>)
    ensures |ms| <= |right|
    ensures forall k :: 0 <= k < |ms| ==> pred(a, ms[k]) && ms[k] in right
  {
    if |right| == 0 then []
    else (if pred(a, right[0]) then [right[0]] else []) + Matches(a, right[1..], pred)
  }

  /** Every accepted element of `right` is among the matches. */
  lemma {:induction false} MatchesComplete<A, B>(a: A, right: seq<B>, pred: (A, B) -> bool, k: nat)
    requires k < |right| && pred(a, right[k])
    ensures right[k] in Matches(a, right, pred)
  {
    if k > 0 {
      MatchesComplete(a, right[1..], pred, k - 1);
    }
  }

  /** Filtering keeps `right` order: the matches of a concatenation are the matches of the
      first part followed by those of the second. */
  lemma {:induction false} MatchesAppend<A, B>(a: A, right1: seq<B>, right2: seq<B>, pred: (A, B) -> bool)
    ensures Matches(a, right1 + right2, pred) == Matches(a, right1, pred) + Matches(a, right2, pred)
  {
    if |right1| == 0 {
      assert right1 + right2 == right2;
    } else {
      assert (right1 + right2)[1..] == right1[1..] + right2;
      MatchesAppend(a, right1[1..], right2, pred);
    }
  }

  /** The rows one left element contributes: a pair per match, or a single `(a, null)`. */
  function Rows<A, B>(a: A, right: seq<B>, pred: (A, B) -> bool): (rows: seq<Pair<A, Option<B>>>)
    ensures |rows| >= 1
    ensures forall k :: 0 <= k < |rows| ==> rows[k].first == a
  {
    var ms := Matches(a, right, pred);
    if |ms| == 0 then [Pair(a, None)]
    else seq(|ms|, k requires 0 <= k < |ms| => Pair(a, Some(ms[k])))
  }

  /** `leftJoin(streamA, collectionB, predicate)`: the rows of each left element, in
      left order. */
  function LeftJoin<A, B>(left: seq<A>, right: seq<B>, pred: (A, B) -> bool): (rows: seq<Pair<A, Option<B>>>)
    ensures |rows| >= |left|
    ensures forall k :: 0 <= k < |rows| ==> rows[k].first in left
    ensures forall k :: 0 <= k < |rows| && rows[k].second.Some? ==>
              pred(rows[k].first, rows[k].second.value) && rows[k].second.value in right
    ensures forall k :: 0 <= k < |rows| && rows[k].second.None? ==>
              Matches(rows[k].first, right, pred) == []
  {
    if |left| == 0 then []
    else Rows(left[0], right, pred) + LeftJoin(left[1..], right, pred)
  }

  /** How many rows `a` contributes: max(1, number of matches). */
  function RowCount<A, B>(a: A, right: seq<B>, pred: (A, B) -> bool): nat
  {
    var n := |Matches(a, right, pred)|;
    if n == 0 then 1 else n
  }

  /** The sum of the row counts of the left elements. */
  function TotalRows<A, B>(left: seq<A>, right: seq<B>, pred: (A, B) -> bool): nat
  {
    if |left| == 0 then 0 else RowCount(left[0], right, pred) + TotalRows(left[1..], right, pred)
  }

  /** The output has max(1, matches) rows per left element. */
  lemma {:induction false} LeftJoinLength<A, B>(left: seq<A>, right: seq<B>, pred: (A, B) -> bool)
    ensures |LeftJoin(left, right, pred)| == TotalRows(left, right, pred)
  {
    if |left| > 0 {
      LeftJoinLength(left[1..], right, pred);
    }
  }

  /** The join of a concatenation is the concatenation of the joins: all rows of an
      earlier left element come before those of a later one. */
  lemma {:induction false} LeftJoinAppend<A, B>(xs: seq<A>, ys: seq<A>, right: seq<B>, pred: (A, B) -> bool)
    ensures LeftJoin(xs + ys, right, pred) == LeftJoin(xs, right, pred) + LeftJoin(ys, right, pred)
  {
    if |xs| == 0 {
      assert xs + ys == ys;
    } else {
      assert (xs + ys)[0] == xs[0];
      assert (xs + ys)[1..] == xs[1..] + ys;
      LeftJoinAppend(xs[1..], ys, right, pred);
      calc {
        LeftJoin(xs + ys, right, pred);
        Rows(xs[0], right, pred) + LeftJoin(xs[1..] + ys, right, pred);
        Rows(xs[0], right, pred) + (LeftJoin(xs[1..], right, pred) + LeftJoin(ys, right, pred));
        (Rows(xs[0], right, pred) + LeftJoin(xs[1..], right, pred)) + LeftJoin(ys, right, pred);
      }
    }
  }

  /** Where the rows of the `i`-th left element start. */
  function Offset<A, B>(left: seq<A>, right: seq<B>, pred: (A, B) -> bool, i: nat): nat
    requires i <= |left|
  {
    |LeftJoin(left[..i], right, pred)|
  }

  /** The rows of the `i`-th left element form one contiguous block, between the blocks
      of the elements before and after it: nothing is dropped, reordered or mixed. */
  lemma LeftJoinBlocks<A, B>(left: seq<A>, right: seq<B>, pred: (A, B) -> bool, i: nat)
    requires i < |left|
    ensures Offset(left, right, pred, i) < Offset(left, right, pred, i + 1) <= |LeftJoin(left, right, pred)|
    ensures LeftJoin(left, right, pred)[Offset(left, right, pred, i)..Offset(left, right, pred, i + 1)]
         == Rows(left[i], right, pred)
  {
    var before := left[..i];
    var rest := left[i + 1..];
    assert left[..i + 1] == before + [left[i]];
    assert left == before + [left[i]] + rest;
    assert [left[i]][1..] == [];
    LeftJoinAppend(before, [left[i]], right, pred);
    LeftJoinAppend(before + [left[i]], rest, right, pred);
  }

  /** The rows of one left element hold each of its matches, or `None` when it has none. */
  lemma RowsComplete<A, B>(a: A, right: seq<B>, pred: (A, B) -> bool)
    ensures Matches(a, right, pred) == [] ==> Pair(a, None) in Rows(a, right, pred)
    ensures forall k :: 0 <= k < |right| && pred(a, right[k]) ==> Pair(a, Some(right[k])) in Rows(a, right, pred)
  {
    var ms := Matches(a, right, pred);
    var block := Rows(a, right, pred);
    forall k | 0 <= k < |right| && pred(a, right[k])
      ensures Pair(a, Some(right[k])) in block
    {
      MatchesComplete(a, right, pred, k);
      var j :| 0 <= j < |ms| && ms[j] == right[k];
      assert block[j] == Pair(a, Some(right[k]));
    }
  }

  /** Every left element appears: with each of its matches when there are any, and once
      with `None` when there are none. */
  lemma LeftJoinComplete<A, B>(left: seq<A>, right: seq<B>, pred: (A, B) -> bool, i: nat)
    requires i < |left|
    ensures Matches(left[i], right, pred) == [] ==> Pair(left[i], None) in LeftJoin(left, right, pred)
    ensures forall k :: 0 <= k < |right| && pred(left[i], right[k]) ==>
              Pair(left[i], Some(right[k])) in LeftJoin(left, right, pred)
  {
    LeftJoinBlocks(left, right, pred, i);
    RowsComplete(left[i], right, pred);
    var rows := LeftJoin(left, right, pred);
    var lo, hi := Offset(left, right, pred, i), Offset(left, right, pred, i + 1);
    assert forall x :: x in rows[lo..hi] ==> x in rows;
  }
}

=== FILE: users.dfy ===
/** `User`: an entity that carries nothing but its id and has no mutator. */
module Users {
  import opened EntityBase

  datatype User = User(id: Uuid)

  /** `getId`, passed to the generic repository as its key. */
  function GetId(u: User): Uuid { u.id }

  /** The `EntityBase` view used by `equals` and `hashCode`. */
  function AsEntity(u: User): Entity { Entity(UserClass, u.id) }

  /** `User.create(id)`. */
  function Create(id: Uuid): (u: User)
    ensures GetId(u) == id
  {
    User(id)
  }

  /** Two users created from one id are equal; created from different ids they are
      unequal. */
  lemma CreateEquality(a: Uuid, b: Uuid)
    ensures Equals(AsEntity(Create(a)), AnEntity(AsEntity(Create(b)))) <==> a == b
  {
  }
}
